=== FILE: README.md ===
# Artificial Bee Colony optimiser — a Dafny model

This project models the core of a single-threaded Artificial Bee Colony (ABC)
optimiser. The optimiser minimises an objective function over a box
`[lb, ub]^n`. It keeps a fixed population of `np` *food sources*. Each food
source is a candidate solution with a cached objective value, a cached fitness
and a stagnation counter (`trials`). Every iteration runs three phases:

- the **employed** phase makes one greedy neighbour move on every source;
- the **onlooker** phase visits the sources round robin and moves each visited
  source with a probability that grows with its fitness, until `np + 1` moves
  were made;
- the **scout** phase remembers the best source and restarts one source with a
  fresh random vector.

Two things are abstracted:

- **The objective.** It is a parameter `f: seq<real> -> real` of every member
  that evaluates a solution. It is a pure total function.
- **Randomness.** Every draw of the random generator is an explicit argument:
  - `MoveDraw`: the partner indices the retry loop draws, the coordinate, and phi;
  - `Visit`: the onlooker's uniform draw;
  - `ScoutDraw`: the scout's fresh vector and its tie-break index;
  - `Init`'s starting vectors.

  The ranges of the draws in the phases are preconditions. They state what
  the generator guarantees:
  - `MoveDrawn`: partners in range, a coordinate in range, phi in [-1, 1];
  - `AllVisitsDrawn`: the uniform draw in [0, 1);
  - `ScoutDrawn`: a vector of the right length, in the box whenever the box
    is not empty, and a tie-break index in range whenever there is a source
    to pick. With no sources the index is unconstrained, so an empty colony
    still has draws to run on.

  `Init`'s starting vectors are not constrained to the box. Instead, its
  contract says the colony satisfies the box invariant exactly when every
  starting vector lies in the box.

Arithmetic is exact `real` arithmetic. The two loops that exit only with
probability one use a finite supply of draws:

- the partner retry loop;
- the onlooker loop.

Running out of draws is the result `Err(OutOfDraws)`. For these two loops it
stands for "the loop had not exited yet". The employed loop also returns it
when it is given fewer move draws than there are sources. That loop always
exits, so there the error only means the caller supplied too few draws.

Modules, one per source concept:

- `Results` (`results.dfy`): `Result`, `Option` and the three ways a step fails:
  - `EmptyRange`: the numeric library raises;
  - `OutOfDraws`: a loop has not exited;
  - `NoBest`: the report runs before any best was stored.
- `FoodSources` (`foodsource.dfy`): the food source record, the fitness
  transform, construction, the atomic replace, and the step laws.
- `Colonies` (`colony.dfy`): configuration, colony state, construction, and
  the population invariants `WellFormed` and `Valid`.
- `Neighbours` (`neighbour.dfy`): the partner retry loop, clamping, the
  candidate vector, and the greedy move.
- `Probabilities` (`probabilities.dfy`): the maximum fitness and the onlooker
  probabilities.
- `Phases` (`phases.dfy`): the employed and onlooker phases.
- `Scouts` (`scout.dfy`): best tracking and the restart.
- `Runs` (`run.dfy`): one iteration, the iteration loop, and the final report.

## Behaviour as the code has it

These points follow the code. The comments beside the code, or the usual
description of the algorithm, say otherwise.

- **Scout choice.** The comment promises to restart the source with the most
  trials over the limit. The code instead overwrites the whole marker array
  with a single trial count (src/abc.py:133), so the choice works like this:
  - if any source is over the limit, the arg-max is index 0, and source 0 is
    restarted;
  - otherwise every marker is 0, all indices tie, and the tie-break draw picks
    any source.

  Either way exactly one source is restarted every iteration. `ScoutIndex`
  models this. `StagnantSourceSurvives` proves that a stagnant source other
  than 0 is never the one restarted.
- **Remembered best.** `best_solution` is a reference to a live food source.
  The model keeps it as an index into the population. This is exact, because
  the list's objects are mutated in place and never replaced. So when the
  restart hits that index, the remembered best changes with it.
  `AliasedBestCanDegrade` gives a concrete population where the remembered
  best drops from fitness 1 to fitness 1/2 within one scout phase.
- **The fitness transform is strictly decreasing on all reals.** A common
  reading calls the `1 + |v|` branch for negative `v` a non-monotone quirk.
  It is not: for `v < 0` it equals `1 - v`, and every value there is above 1,
  while every value of the other branch is at most 1. See `FitnessOrder`.
- **The constructor validates nothing.** Degenerate configurations fail
  wherever the numeric library or a loop first meets them:
  - a negative `solution_size` with `np >= 1`: construction itself raises,
    because the starting vector is drawn with a negative size
    (src/foodsource.py:9-11); this case is not modelled (see "## Left out");
  - `np <= 0`: the maximum of an empty list raises in the first iteration
    (`Iterate` gives `EmptyRange`);
  - `np == 1`: the partner retry loop never exits (`SingleSourceNeverIterates`);
  - `solution_size == 0`: drawing a coordinate raises.
- **The onlooker loop makes `np + 1` moves, not `np`.** It runs while
  `solutions <= np` (`OnlookerPhase`).

## Model

| member | source | states |
|---|---|---|
| `FoodSources.Fitness` | src/foodsource.py:17-19 | fitness is positive for every objective value. It lies in (0, 1] for values at or above 0 and above 1 for negative values. It is exactly 1 only at objective value 0. |
| `FoodSources.FitnessStrictlyDecreasing` | src/foodsource.py:17-19 | a strictly lower objective value always has a strictly higher fitness. |
| `FoodSources.FitnessOrder` | src/foodsource.py:17-19 | comparing fitness values is exactly comparing objective values in reverse, in both directions. This is what the `>` of the greedy selection relies on. |
| `FoodSources.FitnessRoundTrip` | src/foodsource.py:17-19 | the objective value is recovered from its fitness by `ObjectiveOf`, so the transform loses nothing. |
| `FoodSources.ObjectiveRoundTrip` | src/foodsource.py:17-19 | every positive real is the fitness of some objective value, so the transform maps the reals onto the positive reals. |
| `FoodSources.NewFoodSource` | src/foodsource.py:9-23 | a new source holds the sampled vector and starts with `trials == 0`. Its objective value is `f` of the vector, its fitness is the transform of that value, and the fitness inverts back to `f` of the vector. |
| `FoodSources.UpdateSolution` | src/foodsource.py:34-38 | the replace sets solution, objective value and fitness to exactly the given arguments and sets `trials` to 0. |
| `FoodSources.Stagnate` | src/abc.py:70-72 | a rejected attempt raises `trials` by exactly one and changes nothing else. |
| `FoodSources.AttemptedIsProgress` | src/abc.py:60-72 | any number of greedy attempts is progress: the source became strictly fitter, or kept its solution and cache with a counter that did not go down. |
| `FoodSources.StepThenAttempts` | src/abc.py:60-72 | one greedy attempt followed by `m` more is `m + 1` attempts: the source became strictly fitter, or it is unchanged except that `trials` rose by exactly `m + 1`. |
| `Colonies.HalfTowardZero` | src/abc.py:13 | `np` is the swarm size halved and truncated toward zero: the floor of half for non-negative sizes. |
| `Colonies.Init` | src/abc.py:5-34 | construction records the given dimension, bounds and iteration count, and `np` as the swarm size halved toward zero. It makes one source per starting vector. It sets `trial_limit == np * solution_size` and no best. Every source starts with `trials == 0` and a consistent cache. The colony satisfies the box invariant exactly when every starting vector is in the box. |
| `Neighbours.PickPartner` | src/abc.py:42-45 | the retry loop yields the first draw that differs from `i`, and it yields one exactly when some draw differs from `i`. |
| `Neighbours.SoleSourceHasNoPartner` | src/abc.py:42-45 | with a single source every draw equals the only index, so the retry loop never exits. |
| `Neighbours.Clamp` | src/abc.py:54-58 | the clamped coordinate lies in [lb, ub], and a value already in the box is unchanged. It is the point of the box nearest to the unclamped value. |
| `Neighbours.Candidate` | src/abc.py:51-58 | the candidate equals the source's solution on every coordinate but `dim`. It stays in the box when the source is in the box. The perturbation is kept as is when it stays in the box. A partner that agrees on `dim` changes nothing. |
| `Neighbours.Move` | src/abc.py:60-72 | the source becomes the evaluated candidate with `trials == 0` exactly when the candidate's fitness is strictly higher. Otherwise only its `trials` rises by one. Every other source is unchanged and the touched fitness never decreases. Consistency, dimension and box membership are kept. |
| `Neighbours.NeighbourMove` | src/abc.py:38-72 | with its draws, the move succeeds exactly when the retry loop finds a partner and there is a coordinate to draw. With one source it never finishes. On success the partner is the first drawn index other than `i`, in range. Source `i` becomes the fresh source built from the clamped candidate exactly when that candidate is strictly fitter, and is the same source with `trials` plus one exactly when it is not. No other source changes. |
| `Probabilities.MaxFitness` | src/abc.py:78-84 | the maximum is at least every fitness and is the fitness of some source. |
| `Probabilities.CalculateProbabilities` | src/abc.py:75-89 | an empty population is an error. Otherwise there is one probability per source. For positive fitness values each lies in (0.1, 1.0], and it is exactly 1.0 for the sources of maximum fitness. |
| `Probabilities.ProbabilitiesPreserveOrder` | src/abc.py:86-87 | one source has a lower probability than another exactly when it has a lower fitness. |
| `Probabilities.ProbabilityRecoversFitness` | src/abc.py:86-87 | each fitness is recovered from its probability and the maximum fitness. |
| `Phases.EmployedLoop` | src/abc.py:91-94 | the loop from `i` leaves sources below `i` unchanged. Every source from `i` on obeys the accept/reject law once. The loop keeps length, dimension, consistency and the box. |
| `Phases.EmployedLoopCompletes` | src/abc.py:91-94 | the loop from `i` completes exactly when each remaining source's move, in order, finds its partner and a coordinate. |
| `Phases.EmployedPhase` | src/abc.py:91-94 | the phase moves every source exactly once. Each source was either replaced by a strictly fitter one with `trials == 0`, or only its `trials` rose by one. It completes exactly when every source's retry loop exits within its draws and there is a coordinate. |
| `Phases.NextIndex` | src/abc.py:108-111 | the visited index advances round robin, `(i + 1) mod np`, and stays in [0, np). |
| `Phases.OnlookerLoop` | src/abc.py:96-112 | from `solutions` selections, the loop selects exactly `np + 1 - solutions` more indices, all in [0, np). A source selected `m` times either became strictly fitter or is the same source with `trials` raised by exactly `m`. A source never selected is unchanged. Consistency and the box are kept. |
| `Phases.OnlookerPhase` | src/abc.py:96-112 | the phase makes exactly `np + 1` moves, all on indices in [0, np). A source moved `m` times either became strictly fitter or is unchanged except that `trials` rose by exactly `m`. |
| `Scouts.ScanBest` | src/abc.py:117-121 | the scan with strict `>` ends on the lowest index of maximum fitness. |
| `Scouts.IterationBest` | src/abc.py:117-121 | the iteration's best is the lowest index of maximum fitness. |
| `Scouts.FirstBestUnique` | src/abc.py:117-121 | the lowest index of maximum fitness is unique, so it characterises the scan's result. |
| `Scouts.UpdateBest` | src/abc.py:125-126 | the remembered best becomes the iteration's best or stays. It is at least as fit as both. It is kept when the iteration's best is not strictly fitter. |
| `Scouts.ScoutIndex` | src/abc.py:129-144 | the restarted index is in range. It is 0 whenever any source is over the limit; otherwise it is the tie-break draw. |
| `Scouts.Scout` | src/abc.py:114-153 | exactly one source is restarted with the fresh vector, a consistent cache and `trials == 0`, and every other source is untouched. The restarted index is 0 when some source is over the limit, and the tie-break draw otherwise. A replaced best is the iteration's best. The remembered best points to a source of maximum fitness in the population the phase saw. A best that was already maximal is kept. |
| `Scouts.StagnantSourceSurvives` | src/abc.py:128-144 | a source other than 0 that is over the trial limit keeps its solution and its over-limit counter through the scout phase. |
| `Scouts.AliasedBestCanDegrade` | src/abc.py:125-153 | in a concrete two-source colony, the remembered best is restarted in the same phase. Its fitness drops from 1 to 1/2. |
| `Runs.Iterate` | src/abc.py:157-160 | an iteration keeps the configuration, the population size and the well-formedness invariant. It always stores a best. An empty population fails at the maximum of an empty list. |
| `Runs.IterateKeepsValid` | src/abc.py:157-160 | an iteration keeps every coordinate of every solution in [lb, ub]. |
| `Runs.SingleSourceNeverIterates` | src/abc.py:42-45 | with a single source no iteration completes, because the first partner retry loop never exits. |
| `Runs.IterationProgress` | src/abc.py:157-160 | across an iteration exactly one source becomes the fresh scout source. Every other source became strictly fitter or kept its solution with a counter that did not go down. |
| `Runs.RunLoop` | src/abc.py:157-160 | the iteration loop from iteration `i` on keeps the configuration, the population size and well-formedness. It never fails for want of a best. Once at least one iteration has run, a best is stored. |
| `Runs.Run` | src/abc.py:155-162 | the report fails for want of a best exactly when there were no iterations and no best was stored. With no population and at least one iteration it fails with an empty range. A reported source has a consistent cache and the right dimension. |
| `Runs.TinySwarmFails` | src/abc.py:13-28 | a swarm of fewer than two bees builds no food source. Its first iteration and a run of at least one iteration both fail with an empty range, whatever the bounds and dimension. |
| `Runs.OneBeeFails` | src/abc.py:155-160 | a concrete one-bee, two-coordinate, one-iteration run meets the draw ranges and fails with an empty range. |
| `Runs.RunLoopKeepsValid` | src/abc.py:155-160 | the iteration loop keeps the box invariant. |
| `Runs.RunReportsSound` | src/abc.py:155-162 | the reported source is sound: right dimension, inside the box, consistent cache. |
| `Runs.SingleSourceNeverReports` | src/abc.py:155-162 | with a single source a run of at least one iteration never reaches its report. |
| `Runs.ZeroIterationsReportNothing` | src/abc.py:155-162 | a freshly constructed colony run for zero iterations fails to report, because no best was ever stored. |

## Left out

- The random generator: every draw is an argument whose range is a
  precondition. No distribution or probability is modelled.
- Floating point: all arithmetic is exact `real`. Bounds and orderings hold for
  exact arithmetic only. The same goes for the float division in `int(swarm_size / 2)`,
  which is exact only below 2^53.
- Termination of the partner retry loop and of the onlooker loop: both exit
  only with probability one. The model consumes a finite list of draws and
  proves facts about every run that exits.
- `CalculateProbabilities`: when the maximum fitness is 0 the program divides
  by zero and gets inf/nan. This never happens for consistent caches, because
  fitness is positive. The model requires a non-zero maximum instead.
- `get_solution_copy`, `get_solution` and `get_fitness_value` (src/foodsource.py:25-32):
  the record is an immutable value, so these are the field selectors `solution`
  and `fitness`. A copy and a view of a value cannot differ, and reading changes nothing.
- The objective callable stored in every food source: it is the single
  parameter `f`, so `update_solution` cannot change it.
- `dump` and all printing (src/foodsource.py:40-44, src/abc.py:162): terminal
  output. `Run` returns the food source that would be printed.
- Negative `solution_size` and negative `max_it`: both are `nat` in `Config`
  and `Init`, while the program accepts any integer. A negative `solution_size`
  with `np >= 1` makes construction raise (src/foodsource.py:9-11), so no
  colony exists. A negative `max_it` gives an empty `range(max_it)` and
  behaves exactly like `max_it == 0`, ending in the report of no best
  (src/abc.py:157, 162). The model covers that behaviour through `maxIt == 0`.
- The Rosenbrock objective `f` and the `__main__` block (src/abc.py:164-178):
  the objective stays abstract.
- Later mutation through the aliased best beyond what the index shows: the
  index reads the live source, which is the program's behaviour.
  `AliasedBestCanDegrade` exhibits the consequence.

=== FILE: colony.dfy ===
/** The colony's configuration, its state and its construction
    (src/abc.py, `ABC.__init__`). */
module Colonies {
  import opened Results
  import opened FoodSources

  type Population = seq<FoodSource>

  /** The constants fixed at construction. `np` is the number of food
      sources the phases loop over; `trialLimit` the stagnation threshold. */
  datatype Config = Config(
    solutionSize: nat,
    lb: real,
    ub: real,
    np: int,
    trialLimit: int,
    maxIt: nat)

  /** The colony: its constants, the food sources, and the remembered best.
      `best` is an index into `sources`, not a copy: the program keeps a
      reference to a live food source, which later phases go on mutating. */
  datatype Colony = Colony(cfg: Config, sources: Population, best: Option<nat>)

  /** `int(s / 2)`: halving with truncation toward zero. */
  function HalfTowardZero(s: int): (h: int)
    ensures s >= 0 ==> 0 <= h && 2 * h <= s < 2 * h + 2
    ensures s < 0 ==> h <= 0 && 2 * h >= s > 2 * h - 2
  {
    if s >= 0 then s / 2 else -((-s) / 2)
  }

  /** How many iterations `range(np)` performs. */
  function LoopCount(np: int): nat {
    if np > 0 then np else 0
  }

  /** Every solution has `n` coordinates. */
  predicate Shaped(pop: Population, n: nat) {
    forall k :: 0 <= k < |pop| ==> |pop[k].solution| == n
  }

  /** Every cached objective and fitness belongs to its solution. */
  predicate AllConsistent(f: seq<real> -> real, pop: Population) {
    forall k :: 0 <= k < |pop| ==> Consistent(f, pop[k])
  }

  /** Every solution lies in the box. */
  predicate AllInBox(pop: Population, lb: real, ub: real) {
    forall k :: 0 <= k < |pop| ==> InBox(pop[k].solution, lb, ub)
  }

  /** The structural invariant every operation needs to be defined. */
  predicate WellFormed(f: seq<real> -> real, c: Colony) {
    && |c.sources| == LoopCount(c.cfg.np)
    && c.cfg.trialLimit == c.cfg.np * c.cfg.solutionSize
    && Shaped(c.sources, c.cfg.solutionSize)
    && AllConsistent(f, c.sources)
    && (c.best.Some? ==> c.best.value < |c.sources|)
  }

  /** The population invariant of the optimiser: well formed, and every
      coordinate of every solution inside [lb, ub]. */
  predicate Valid(f: seq<real> -> real, c: Colony) {
    WellFormed(f, c) && AllInBox(c.sources, c.cfg.lb, c.cfg.ub)
  }

  /** Construction. `samples[k]` is the uniformly drawn starting vector of
      food source `k`; there is one per loop iteration of `range(np)`. */
  function Init(f: seq<real> -> real, solutionSize: nat, lb: real, ub: real,
                swarmSize: int, maxIt: nat, samples: seq<seq<real>>): (c: Colony)
    requires |samples| == LoopCount(HalfTowardZero(swarmSize))
    requires forall k :: 0 <= k < |samples| ==> |samples[k]| == solutionSize
    ensures c.cfg.np == HalfTowardZero(swarmSize)
    ensures swarmSize >= 0 ==> c.cfg.np == swarmSize / 2
    ensures c.cfg.solutionSize == solutionSize && c.cfg.lb == lb && c.cfg.ub == ub
    ensures c.cfg.maxIt == maxIt
    ensures |c.sources| == |samples|
    ensures c.cfg.trialLimit == c.cfg.np * solutionSize
    ensures c.best == None
    ensures forall k :: 0 <= k < |samples| ==>
              c.sources[k].solution == samples[k] && c.sources[k].trials == 0
    ensures WellFormed(f, c)
    ensures (forall k :: 0 <= k < |samples| ==> InBox(samples[k], lb, ub)) <==> Valid(f, c)
  {
    var np := HalfTowardZero(swarmSize);
    var sources := seq(|samples|, k requires 0 <= k < |samples| => NewFoodSource(f, samples[k]));
    Colony(Config(solutionSize, lb, ub, np, np * solutionSize, maxIt), sources, None)
  }
}

=== FILE: foodsource.dfy ===
/** One candidate solution of the optimiser together with its cached
    evaluation (src/foodsource.py).

    The objective function is a parameter `f` of every member that evaluates
    a solution: the program stores the same callable in every food source, and
    it never changes.
 */
module FoodSources {

  /** Absolute value of a real, as the numeric library's `abs`. */
  function Abs(x: real): real {
    if x < 0.0 then -x else x
  }

  /** The fitness transform: a lower objective value is a higher fitness.
      Objective values at or above zero map into (0, 1], negative ones above 1. */
  function Fitness(v: real): (r: real)
    ensures r > 0.0
    ensures v >= 0.0 ==> r <= 1.0
    ensures v < 0.0 ==> r > 1.0
    ensures r == 1.0 <==> v == 0.0
  {
    if v >= 0.0 then 1.0 / (1.0 + v) else 1.0 + Abs(v)
  }

  /** The objective value a fitness came from: the inverse of `Fitness`. */
  function ObjectiveOf(r: real): real
    requires r > 0.0
  {
    if r <= 1.0 then 1.0 / r - 1.0 else 1.0 - r
  }

  lemma FitnessStrictlyDecreasing(v1: real, v2: real)
    requires v1 < v2
    ensures Fitness(v1) > Fitness(v2)
  {
  }

  /** A higher fitness means exactly a lower objective value, in both directions. */
  lemma FitnessOrder(v1: real, v2: real)
    ensures Fitness(v1) > Fitness(v2) <==> v1 < v2
  {
    if v1 < v2 {
      FitnessStrictlyDecreasing(v1, v2);
    } else if v2 < v1 {
      FitnessStrictlyDecreasing(v2, v1);
    }
  }

  lemma FitnessRoundTrip(v: real)
    ensures ObjectiveOf(Fitness(v)) == v
  {
  }

  /** Every positive real is the fitness of exactly one objective value. */
  lemma ObjectiveRoundTrip(r: real)
    requires r > 0.0
    ensures Fitness(ObjectiveOf(r)) == r
  {
  }

  /** The cached state of one food source. */
  datatype FoodSource = FoodSource(
    solution: seq<real>,
    objValue: real,
    fitness: real,
    trials: nat)

  /** The cached objective and fitness belong to the stored solution. */
  predicate Consistent(f: seq<real> -> real, s: FoodSource) {
    s.objValue == f(s.solution) && s.fitness == Fitness(s.objValue)
  }

  /** Every coordinate lies in the box [lb, ub]. */
  predicate InBox(v: seq<real>, lb: real, ub: real) {
    forall k :: 0 <= k < |v| ==> lb <= v[k] <= ub
  }

  /** A food source of the right dimension, inside the box, with a consistent cache. */
  predicate Sound(f: seq<real> -> real, s: FoodSource, n: nat, lb: real, ub: real) {
    |s.solution| == n && InBox(s.solution, lb, ub) && Consistent(f, s)
  }

  /** A freshly constructed food source around the sampled vector `sample`
      (the uniform sampling itself is the caller's draw). */
  function NewFoodSource(f: seq<real> -> real, sample: seq<real>): (s: FoodSource)
    ensures s.solution == sample
    ensures s.trials == 0
    ensures Consistent(f, s)
    ensures ObjectiveOf(s.fitness) == f(sample)
  {
    var v := f(sample);
    FitnessRoundTrip(v);
    FoodSource(sample, v, Fitness(v), 0)
  }

  /** The atomic replace on the receiver `s`: all three cached fields at
      once, and the stagnation counter back to zero. Every field of `s` is
      overwritten, so the result does not depend on it. */
  function UpdateSolution(s: FoodSource, solution: seq<real>, objValue: real, fitness: real): (r: FoodSource)
    ensures r.solution == solution && r.objValue == objValue && r.fitness == fitness
    ensures r.trials == 0
  {
    FoodSource(solution, objValue, fitness, 0)
  }

  /** One rejected improvement attempt: only the counter moves. */
  function Stagnate(s: FoodSource): (r: FoodSource)
    ensures r.trials == s.trials + 1
    ensures r.(trials := s.trials) == s
  {
    s.(trials := s.trials + 1)
  }

  /** The outcome law of one greedy improvement attempt: either the source was
      replaced by a strictly fitter one with a reset counter, or only its
      counter went up by one. */
  predicate StepLaw(before: FoodSource, after: FoodSource) {
    || (after.trials == 0 && after.fitness > before.fitness)
    || after == Stagnate(before)
  }

  /** What any number of improvement attempts can do to one source: it either
      became strictly fitter, or it kept its solution and cache and its counter
      did not go down. */
  predicate Progress(before: FoodSource, after: FoodSource) {
    || after.fitness > before.fitness
    || (&& after.solution == before.solution
        && after.objValue == before.objValue
        && after.fitness == before.fitness
        && after.trials >= before.trials)
  }

  /** What `times` greedy improvement attempts can do to one source: it
      became strictly fitter, or every attempt was rejected and it is the
      same source with its counter raised by exactly `times`. */
  predicate Attempted(before: FoodSource, after: FoodSource, times: nat) {
    || after.fitness > before.fitness
    || after == before.(trials := before.trials + times)
  }

  /** One attempt followed by `times` more is `times + 1` attempts. */
  lemma StepThenAttempts(a: FoodSource, b: FoodSource, c: FoodSource, times: nat)
    requires StepLaw(a, b) && Attempted(b, c, times)
    ensures Attempted(a, c, times + 1)
  {
  }

  /** Any number of attempts is progress. */
  lemma AttemptedIsProgress(before: FoodSource, after: FoodSource, times: nat)
    requires Attempted(before, after, times)
    ensures Progress(before, after)
  {
  }

  lemma StepLawIsProgress(before: FoodSource, after: FoodSource)
    requires StepLaw(before, after)
    ensures Progress(before, after)
    ensures after.fitness >= before.fitness
  {
  }

  lemma ProgressTransitive(a: FoodSource, b: FoodSource, c: FoodSource)
    requires Progress(a, b) && Progress(b, c)
    ensures Progress(a, c)
    ensures c.fitness >= a.fitness
  {
  }
}

=== FILE: neighbour.dfy ===
/** The greedy single-coordinate neighbour move of one food source
    (src/abc.py, `__generate_and_select_new_solution`). */
module Neighbours {
  import opened Results
  import opened FoodSources
  import opened Colonies

  /** The random draws one move consumes: the successive partner indices the
      retry loop draws, the coordinate to perturb, and the factor phi. */
  datatype MoveDraw = MoveDraw(partners: seq<int>, dim: int, phi: real)

  /** The ranges the random generator guarantees, for a population of `size`
      sources with `n` coordinates each. */
  predicate MoveDrawn(d: MoveDraw, size: nat, n: nat) {
    && (forall k :: 0 <= k < |d.partners| ==> 0 <= d.partners[k] < size)
    && (n > 0 ==> 0 <= d.dim < n)
    && -1.0 <= d.phi <= 1.0
  }

  /** The partner retry loop: the first draw that differs from `i`. `None`
      means the loop had not exited when the draws ran out. */
  function PickPartner(draws: seq<int>, i: int): (r: Option<int>)
    ensures r.Some? <==> exists k :: 0 <= k < |draws| && draws[k] != i
    ensures r.Some? ==> r.value != i
    ensures r.Some? ==>
              exists k :: 0 <= k < |draws| && draws[k] == r.value &&
                forall m :: 0 <= m < k ==> draws[m] == i
    decreases |draws|
  {
    if |draws| == 0 then None
    else if draws[0] != i then
      Some(draws[0])
    else
      var r := PickPartner(draws[1..], i);
      assert r.Some? ==> exists k :: 0 <= k < |draws| && draws[k] != i by {
        if r.Some? {
          var k :| 0 <= k < |draws[1..]| && draws[1..][k] != i;
          assert draws[k + 1] != i;
        }
      }
      assert (exists k :: 0 <= k < |draws| && draws[k] != i) ==> r.Some? by {
        if exists k :: 0 <= k < |draws| && draws[k] != i {
          var k :| 0 <= k < |draws| && draws[k] != i;
          assert draws[1..][k - 1] != i;
        }
      }
      assert r.Some? ==>
               exists k :: 0 <= k < |draws| && draws[k] == r.value &&
                 forall m :: 0 <= m < k ==> draws[m] == i by {
        if r.Some? {
          var k :| 0 <= k < |draws[1..]| && draws[1..][k] == r.value &&
                   forall m :: 0 <= m < k ==> draws[1..][m] == i;
          assert draws[k + 1] == r.value;
          assert forall m :: 0 <= m < k + 1 ==> draws[m] == i by {
            forall m | 0 <= m < k + 1 ensures draws[m] == i {
              if m > 0 { assert draws[m] == draws[1..][m - 1]; }
            }
          }
        }
      }
      r
  }

  /** With a single food source every draw equals the only index, so the
      retry loop can never exit. */
  lemma SoleSourceHasNoPartner(draws: seq<int>)
    requires forall k :: 0 <= k < |draws| ==> 0 <= draws[k] < 1
    ensures PickPartner(draws, 0) == None
  {
  }

  /** The distance between two reals. */
  function Dist(a: real, b: real): real {
    Abs(a - b)
  }

  /** Clamping one coordinate into [lb, ub]: above goes to ub, below to lb. */
  function Clamp(x: real, lb: real, ub: real): (r: real)
    ensures lb <= ub ==> lb <= r <= ub
    ensures lb <= x <= ub ==> r == x
    ensures lb <= ub ==> forall y :: lb <= y <= ub ==> Dist(r, x) <= Dist(y, x)
  {
    if x > ub then ub else if x < lb then lb else x
  }

  /** The candidate solution: a copy of `own` whose coordinate `dim` moved by
      phi times its difference to the partner's, then clamped. */
  function Candidate(own: seq<real>, mate: seq<real>, dim: nat, phi: real, lb: real, ub: real): (c: seq<real>)
    requires dim < |own| && dim < |mate|
    ensures |c| == |own|
    ensures forall k :: 0 <= k < |own| && k != dim ==> c[k] == own[k]
    ensures InBox(own, lb, ub) ==> InBox(c, lb, ub)
    ensures InBox(own, lb, ub) && own[dim] == mate[dim] ==> c == own
    ensures lb <= own[dim] + phi * (own[dim] - mate[dim]) <= ub ==>
              c[dim] == own[dim] + phi * (own[dim] - mate[dim])
  {
    own[dim := Clamp(own[dim] + phi * (own[dim] - mate[dim]), lb, ub)]
  }

  /** The move on source `i` once a partner and a coordinate are known: keep
      the candidate only if its fitness is strictly higher. */
  function Move(f: seq<real> -> real, pop: Population, i: nat, partner: nat,
                dim: nat, phi: real, lb: real, ub: real): (r: Population)
    requires i < |pop| && partner < |pop| && partner != i
    requires dim < |pop[i].solution| && dim < |pop[partner].solution|
    ensures |r| == |pop|
    ensures forall k :: 0 <= k < |pop| && k != i ==> r[k] == pop[k]
    ensures StepLaw(pop[i], r[i])
    ensures r[i].fitness >= pop[i].fitness
    ensures var c := Candidate(pop[i].solution, pop[partner].solution, dim, phi, lb, ub);
            && (Fitness(f(c)) > pop[i].fitness <==> r[i] == NewFoodSource(f, c))
            && (Fitness(f(c)) <= pop[i].fitness <==> r[i] == Stagnate(pop[i]))
    ensures |r[i].solution| == |pop[i].solution|
    ensures Consistent(f, pop[i]) ==> Consistent(f, r[i])
    ensures InBox(pop[i].solution, lb, ub) ==> InBox(r[i].solution, lb, ub)
  {
    var c := Candidate(pop[i].solution, pop[partner].solution, dim, phi, lb, ub);
    var v := f(c);
    var fit := Fitness(v);
    if fit > pop[i].fitness then pop[i := UpdateSolution(pop[i], c, v, fit)]
    else pop[i := Stagnate(pop[i])]
  }

  /** One neighbour move on source `i`, with its random draws. It fails when
      the partner retry loop does not exit within the draws, and when there is
      no coordinate to draw. */
  function NeighbourMove(f: seq<real> -> real, cfg: Config, pop: Population, i: nat, d: MoveDraw): (r: Result<Population>)
    requires i < |pop|
    requires Shaped(pop, cfg.solutionSize)
    requires MoveDrawn(d, |pop|, cfg.solutionSize)
    ensures r.Ok? <==> PickPartner(d.partners, i).Some? && cfg.solutionSize > 0
    ensures r.Err? ==> (r.error == OutOfDraws <==> PickPartner(d.partners, i).None?)
    ensures |pop| == 1 ==> r == Err(OutOfDraws)
    ensures r.Ok? ==>
              && |r.value| == |pop|
              && (forall k :: 0 <= k < |pop| && k != i ==> r.value[k] == pop[k])
              && StepLaw(pop[i], r.value[i])
              && Shaped(r.value, cfg.solutionSize)
              && (AllConsistent(f, pop) ==> AllConsistent(f, r.value))
              && (AllInBox(pop, cfg.lb, cfg.ub) ==> AllInBox(r.value, cfg.lb, cfg.ub))
    ensures r.Ok? ==>
              var partner := PickPartner(d.partners, i).value;
              && partner != i && 0 <= partner < |pop|
              && var c := Candidate(pop[i].solution, pop[partner].solution, d.dim as nat, d.phi, cfg.lb, cfg.ub);
              && (Fitness(f(c)) > pop[i].fitness <==> r.value[i] == NewFoodSource(f, c))
              && (Fitness(f(c)) <= pop[i].fitness <==> r.value[i] == Stagnate(pop[i]))
  {
    match PickPartner(d.partners, i)
    case None => Err(OutOfDraws)
    case Some(partner) =>
      if cfg.solutionSize == 0 then Err(EmptyRange)
      else Ok(Move(f, pop, i, partner as nat, d.dim as nat, d.phi, cfg.lb, cfg.ub))
  }
}

=== FILE: phases.dfy ===
/** The employed-bee and onlooker-bee phases (src/abc.py,
    `__employed_bee_phase` and `__onlooker_bee_phase`). */
module Phases {
  import opened Results
  import opened FoodSources
  import opened Colonies
  import opened Neighbours

  /** Every move draw respects the generator's ranges. */
  predicate AllMovesDrawn(draws: seq<MoveDraw>, size: nat, n: nat) {
    forall k :: 0 <= k < |draws| ==> MoveDrawn(draws[k], size, n)
  }

  /** Does the neighbour move on source `k` find a partner among its draws? */
  predicate PartnerFound(d: MoveDraw, k: nat) {
    PickPartner(d.partners, k).Some?
  }

  /** The employed loop from index `i` on: one neighbour move on each source
      `i, i+1, ..., np-1`, in that order; source `k` uses draw `draws[k]`. */
  function EmployedLoop(f: seq<real> -> real, cfg: Config, pop: Population, i: nat, draws: seq<MoveDraw>): (r: Result<Population>)
    requires |pop| == LoopCount(cfg.np) && i <= |pop|
    requires Shaped(pop, cfg.solutionSize)
    requires AllMovesDrawn(draws, |pop|, cfg.solutionSize)
    ensures r.Err? ==> r.error != NoBest
    ensures r.Ok? ==>
              && |r.value| == |pop|
              && Shaped(r.value, cfg.solutionSize)
              && (AllConsistent(f, pop) ==> AllConsistent(f, r.value))
              && (AllInBox(pop, cfg.lb, cfg.ub) ==> AllInBox(r.value, cfg.lb, cfg.ub))
              && (forall k :: 0 <= k < i ==> r.value[k] == pop[k])
              && (forall k :: i <= k < |pop| ==> StepLaw(pop[k], r.value[k]))
    decreases |pop| - i
  {
    if i >= cfg.np then Ok(pop)
    else if i >= |draws| then Err(OutOfDraws)
    else
      match NeighbourMove(f, cfg, pop, i, draws[i])
      case Err(e) => Err(e)
      case Ok(p) => EmployedLoop(f, cfg, p, i + 1, draws)
  }

  /** Partners found from `i` on, given one is found at `i`, are partners
      found from `i + 1` on. */
  lemma PartnersFromNext(draws: seq<MoveDraw>, i: nat, size: nat)
    requires i < size <= |draws| && PartnerFound(draws[i], i)
    ensures (forall k :: i <= k < size ==> PartnerFound(draws[k], k)) <==>
            (forall k :: i + 1 <= k < size ==> PartnerFound(draws[k], k))
  {
  }

  /** One step of the employed loop: it completes from `i` exactly when the
      move on source `i` has a draw and succeeds and the loop completes from
      `i + 1` on the moved population. */
  lemma EmployedLoopStep(f: seq<real> -> real, cfg: Config, pop: Population, i: nat, draws: seq<MoveDraw>)
    requires |pop| == LoopCount(cfg.np) && i < |pop|
    requires Shaped(pop, cfg.solutionSize)
    requires AllMovesDrawn(draws, |pop|, cfg.solutionSize)
    ensures EmployedLoop(f, cfg, pop, i, draws).Ok? <==>
              && i < |draws|
              && NeighbourMove(f, cfg, pop, i, draws[i]).Ok?
              && EmployedLoop(f, cfg, NeighbourMove(f, cfg, pop, i, draws[i]).value, i + 1, draws).Ok?
  {
  }

  /** The employed loop from `i` completes exactly when there is a coordinate
      to draw, a move draw for every source, and each remaining source's
      partner retry loop exits within its draws. */
  lemma {:induction false} EmployedLoopCompletes(f: seq<real> -> real, cfg: Config, pop: Population, i: nat, draws: seq<MoveDraw>)
    requires |pop| == LoopCount(cfg.np) && i <= |pop|
    requires Shaped(pop, cfg.solutionSize)
    requires AllMovesDrawn(draws, |pop|, cfg.solutionSize)
    ensures EmployedLoop(f, cfg, pop, i, draws).Ok? <==>
              || i == |pop|
              || (&& cfg.solutionSize > 0
                  && |draws| >= |pop|
                  && forall k :: i <= k < |pop| ==> PartnerFound(draws[k], k))
    decreases |pop| - i
  {
    if i < |pop| {
      EmployedLoopStep(f, cfg, pop, i, draws);
      if i < |draws| {
        var m := NeighbourMove(f, cfg, pop, i, draws[i]);
        if m.Ok? {
          EmployedLoopCompletes(f, cfg, m.value, i + 1, draws);
          if |draws| >= |pop| {
            PartnersFromNext(draws, i, |pop|);
            assert cfg.solutionSize > 0 && PartnerFound(draws[i], i);
            assert EmployedLoop(f, cfg, pop, i, draws).Ok? == EmployedLoop(f, cfg, m.value, i + 1, draws).Ok?;
          }
        }
      }
    }
  }

  /** The employed-bee phase: exactly one neighbour move per food source,
      for every index in order. */
  function EmployedPhase(f: seq<real> -> real, cfg: Config, pop: Population, draws: seq<MoveDraw>): (r: Result<Population>)
    requires |pop| == LoopCount(cfg.np)
    requires Shaped(pop, cfg.solutionSize)
    requires AllMovesDrawn(draws, |pop|, cfg.solutionSize)
    ensures r.Ok? <==>
              || |pop| == 0
              || (&& cfg.solutionSize > 0
                  && |draws| >= |pop|
                  && forall k :: 0 <= k < |pop| ==> PartnerFound(draws[k], k))
    ensures r.Err? ==> r.error != NoBest
    ensures r.Ok? ==>
              && |r.value| == |pop|
              && Shaped(r.value, cfg.solutionSize)
              && (AllConsistent(f, pop) ==> AllConsistent(f, r.value))
              && (AllInBox(pop, cfg.lb, cfg.ub) ==> AllInBox(r.value, cfg.lb, cfg.ub))
              && (forall k :: 0 <= k < |pop| ==> StepLaw(pop[k], r.value[k]))
  {
    EmployedLoopCompletes(f, cfg, pop, 0, draws);
    EmployedLoop(f, cfg, pop, 0, draws)
  }

  /** One visit of the onlooker loop: the uniform draw compared with the
      visited source's probability, and the move draws used if it is selected. */
  datatype Visit = Visit(u: real, move: MoveDraw)

  /** The generator's guarantees for the onlooker loop: a uniform draw in
      [0, 1) and in-range move draws at every visit. */
  predicate AllVisitsDrawn(visits: seq<Visit>, size: nat, n: nat) {
    forall k :: 0 <= k < |visits| ==> 0.0 <= visits[k].u < 1.0 && MoveDrawn(visits[k].move, size, n)
  }

  /** The onlooker phase's result: the population and the indices of the
      sources that were selected, in selection order. */
  datatype OnlookerRun = OnlookerRun(pop: Population, moved: seq<nat>)

  /** The index visited after `i`: round robin over 0..np-1. */
  function NextIndex(i: nat, np: int): (j: nat)
    requires i < np
    ensures j < np
    ensures j == (i + 1) % np
  {
    if i + 1 > np - 1 then 0 else i + 1
  }

  /** What an onlooker run may have touched: every selected index is a
      source index, a source never selected is unchanged, and each source
      underwent exactly as many improvement attempts as it was selected. */
  predicate OnlookerFrame(pop: Population, run: OnlookerRun, np: int)
    requires |run.pop| == |pop|
  {
    && (forall m :: 0 <= m < |run.moved| ==> run.moved[m] < np)
    && (forall k :: 0 <= k < |pop| && k !in run.moved ==> run.pop[k] == pop[k])
    && (forall k :: 0 <= k < |pop| ==> Attempted(pop[k], run.pop[k], multiset(run.moved)[k]))
  }

  /** A move on source `i` followed by an onlooker run on the moved
      population is an onlooker run that also selected `i`. */
  lemma MoveThenFrame(pop: Population, moved: Population, rest: OnlookerRun, i: nat, np: int)
    requires |pop| == |moved| == |rest.pop| && i < |pop| && i < np
    requires forall k :: 0 <= k < |pop| && k != i ==> moved[k] == pop[k]
    requires StepLaw(pop[i], moved[i])
    requires OnlookerFrame(moved, rest, np)
    ensures OnlookerFrame(pop, OnlookerRun(rest.pop, [i] + rest.moved), np)
  {
    var run := OnlookerRun(rest.pop, [i] + rest.moved);
    forall m | 0 <= m < |run.moved| ensures run.moved[m] < np {
      if m > 0 { assert run.moved[m] == rest.moved[m - 1]; }
    }
    forall k | 0 <= k < |pop| && k !in run.moved ensures run.pop[k] == pop[k] {
      assert k != i && k !in rest.moved;
    }
    assert multiset(run.moved) == multiset([i]) + multiset(rest.moved);
    forall k | 0 <= k < |pop| ensures Attempted(pop[k], run.pop[k], multiset(run.moved)[k]) {
      if k == i {
        StepThenAttempts(pop[k], moved[k], rest.pop[k], multiset(rest.moved)[k]);
      } else {
        assert multiset(run.moved)[k] == multiset(rest.moved)[k];
      }
    }
  }

  /** The onlooker loop with `solutions` selections made so far, visiting
      source `i` next with draw `visits[t]`. It runs until more than `np`
      selections were made. */
  function OnlookerLoop(f: seq<real> -> real, cfg: Config, pop: Population, probs: seq<real>,
                        solutions: nat, i: nat, visits: seq<Visit>, t: nat): (r: Result<OnlookerRun>)
    requires 1 <= cfg.np && |pop| == cfg.np && |probs| == cfg.np
    requires i < cfg.np && solutions <= cfg.np + 1 && t <= |visits|
    requires Shaped(pop, cfg.solutionSize)
    requires AllVisitsDrawn(visits, |pop|, cfg.solutionSize)
    ensures r.Err? ==> r.error != NoBest
    ensures r.Ok? ==>
              && |r.value.pop| == |pop|
              && Shaped(r.value.pop, cfg.solutionSize)
              && (AllConsistent(f, pop) ==> AllConsistent(f, r.value.pop))
              && (AllInBox(pop, cfg.lb, cfg.ub) ==> AllInBox(r.value.pop, cfg.lb, cfg.ub))
              && |r.value.moved| == cfg.np + 1 - solutions
              && OnlookerFrame(pop, r.value, cfg.np)
    decreases |visits| - t
  {
    if solutions > cfg.np then
      assert forall k :: 0 <= k < |pop| ==> pop[k] == pop[k].(trials := pop[k].trials + 0);
      Ok(OnlookerRun(pop, []))
    else if t == |visits| then Err(OutOfDraws)
    else
      var v := visits[t];
      var next := NextIndex(i, cfg.np);
      if v.u < probs[i] then
        match NeighbourMove(f, cfg, pop, i, v.move)
        case Err(e) => Err(e)
        case Ok(p) =>
          match OnlookerLoop(f, cfg, p, probs, solutions + 1, next, visits, t + 1)
          case Err(e) => Err(e)
          case Ok(run) =>
            MoveThenFrame(pop, p, run, i, cfg.np);
            Ok(OnlookerRun(run.pop, [i] + run.moved))
      else
        OnlookerLoop(f, cfg, pop, probs, solutions, next, visits, t + 1)
  }

  /** The onlooker-bee phase: exactly np + 1 neighbour moves, each on a source
      selected by the round robin of Bernoulli trials. */
  function OnlookerPhase(f: seq<real> -> real, cfg: Config, pop: Population, probs: seq<real>,
                         visits: seq<Visit>): (r: Result<OnlookerRun>)
    requires 1 <= cfg.np && |pop| == cfg.np && |probs| == cfg.np
    requires Shaped(pop, cfg.solutionSize)
    requires AllVisitsDrawn(visits, |pop|, cfg.solutionSize)
    ensures r.Err? ==> r.error != NoBest
    ensures r.Ok? ==>
              && |r.value.pop| == |pop|
              && Shaped(r.value.pop, cfg.solutionSize)
              && (AllConsistent(f, pop) ==> AllConsistent(f, r.value.pop))
              && (AllInBox(pop, cfg.lb, cfg.ub) ==> AllInBox(r.value.pop, cfg.lb, cfg.ub))
              && |r.value.moved| == cfg.np + 1
              && (forall m :: 0 <= m < |r.value.moved| ==> r.value.moved[m] < cfg.np)
              && (forall k :: 0 <= k < |pop| && k !in r.value.moved ==> r.value.pop[k] == pop[k])
              && (forall k :: 0 <= k < |pop| ==>
                    || r.value.pop[k].fitness > pop[k].fitness
                    || r.value.pop[k] == pop[k].(trials := pop[k].trials + multiset(r.value.moved)[k]))
  {
    OnlookerLoop(f, cfg, pop, probs, 0, 0, visits, 0)
  }
}

=== FILE: probabilities.dfy ===
/** Selection probabilities for the onlooker phase
    (src/abc.py, `__calculate_probabilities`). */
module Probabilities {
  import opened Results
  import opened FoodSources
  import opened Colonies

  /** The largest fitness in a non-empty population. */
  function MaxFitness(pop: Population): (m: real)
    requires |pop| > 0
    ensures forall k :: 0 <= k < |pop| ==> pop[k].fitness <= m
    ensures exists k :: 0 <= k < |pop| && pop[k].fitness == m
    decreases |pop|
  {
    if |pop| == 1 then pop[0].fitness
    else
      var rest := MaxFitness(pop[1..]);
      assert forall k :: 1 <= k < |pop| ==> pop[k] == pop[1..][k - 1];
      if pop[0].fitness >= rest then pop[0].fitness else rest
  }

  /** Every fitness is positive, as a consistent cache guarantees. */
  predicate AllFit(pop: Population) {
    forall k :: 0 <= k < |pop| ==> pop[k].fitness > 0.0
  }

  lemma ConsistentIsFit(f: seq<real> -> real, pop: Population)
    requires AllConsistent(f, pop)
    ensures AllFit(pop)
  {
  }

  /** The probability of one source given the population's maximum fitness. */
  function Scale(fitness: real, max: real): real
    requires max != 0.0
  {
    0.9 * (fitness / max) + 0.1
  }

  /** `0.9 * fitness / max + 0.1` for every source. The maximum of an empty
      list raises, so an empty population is an error. */
  function CalculateProbabilities(pop: Population): (r: Result<seq<real>>)
    requires |pop| == 0 || MaxFitness(pop) != 0.0
    ensures r.Err? <==> |pop| == 0
    ensures r.Err? ==> r.error == EmptyRange
    ensures r.Ok? ==> |r.value| == |pop|
    ensures r.Ok? && AllFit(pop) ==>
              forall k :: 0 <= k < |pop| ==> 0.1 < r.value[k] <= 1.0
    ensures r.Ok? && AllFit(pop) ==>
              forall k :: 0 <= k < |pop| ==> (r.value[k] == 1.0 <==> pop[k].fitness == MaxFitness(pop))
  {
    if |pop| == 0 then Err(EmptyRange)
    else
      var m := MaxFitness(pop);
      var p := seq(|pop|, k requires 0 <= k < |pop| => Scale(pop[k].fitness, m));
      assert AllFit(pop) ==> forall k :: 0 <= k < |pop| ==> 0.1 < p[k] <= 1.0 by {
        if AllFit(pop) {
          forall k | 0 <= k < |pop| ensures 0.1 < p[k] <= 1.0 {
            RatioBounds(pop[k].fitness, m);
          }
        }
      }
      assert AllFit(pop) ==> forall k :: 0 <= k < |pop| ==> (p[k] == 1.0 <==> pop[k].fitness == m) by {
        if AllFit(pop) {
          forall k | 0 <= k < |pop| ensures p[k] == 1.0 <==> pop[k].fitness == m {
            RatioBounds(pop[k].fitness, m);
          }
        }
      }
      Ok(p)
  }

  lemma RatioBounds(x: real, m: real)
    requires 0.0 < x <= m
    ensures 0.0 < x / m <= 1.0
    ensures x / m == 1.0 <==> x == m
    ensures 0.1 < Scale(x, m) <= 1.0
    ensures Scale(x, m) == 1.0 <==> x == m
  {
  }

  /** The probabilities order the sources exactly as their fitness does. */
  lemma ProbabilitiesPreserveOrder(pop: Population, a: nat, b: nat)
    requires a < |pop| && b < |pop|
    requires AllFit(pop)
    ensures CalculateProbabilities(pop).Ok?
    ensures var p := CalculateProbabilities(pop).value;
            p[a] < p[b] <==> pop[a].fitness < pop[b].fitness
  {
    var m := MaxFitness(pop);
    assert pop[a].fitness <= m;
    var p := CalculateProbabilities(pop).value;
    assert p[a] == Scale(pop[a].fitness, m) && p[b] == Scale(pop[b].fitness, m);
    ScaleMonotone(pop[a].fitness, pop[b].fitness, m);
  }

  /** Each fitness is recovered from its probability and the maximum: the
      probabilities lose nothing but the common scale. */
  lemma ProbabilityRecoversFitness(pop: Population, p: seq<real>, a: nat)
    requires a < |pop|
    requires AllFit(pop)
    requires CalculateProbabilities(pop) == Ok(p)
    ensures pop[a].fitness == Unscale(p[a], MaxFitness(pop))
  {
    var m := MaxFitness(pop);
    assert pop[a].fitness <= m;
    assert p[a] == Scale(pop[a].fitness, m);
    ScaleInverse(pop[a].fitness, m, p[a]);
  }

  lemma ScaleMonotone(x: real, y: real, m: real)
    requires m > 0.0
    ensures Scale(x, m) < Scale(y, m) <==> x < y
  {
  }

  /** The fitness a probability came from, given the maximum fitness. */
  function Unscale(q: real, max: real): real {
    (q - 0.1) / 0.9 * max
  }

  lemma ScaleInverse(x: real, m: real, s: real)
    requires m > 0.0 && s == Scale(x, m)
    ensures Unscale(s, m) == x
  {
  }
}

=== FILE: results.dfy ===
/** Outcomes of the colony's operations.

    The optimiser raises no exceptions of its own, but several of its steps
    fail inside the numeric library or never return. Those cases are values
    here instead of preconditions.
 */
module Results {

  /** Why a step produced no colony. */
  datatype Error =
      /** A random integer was requested from an empty range, or the maximum
          of an empty list was taken (both raise in the numeric library). */
    | EmptyRange
      /** The supplied random draws ran out. For the partner retry loop and
          the onlooker loop this stands for a loop that is still running. For
          the employed loop, which always exits, it only means the caller
          supplied fewer move draws than there are sources. */
    | OutOfDraws
      /** The best solution was reported before any scout phase stored one. */
    | NoBest

  datatype Result<+T> = Ok(value: T) | Err(error: Error)

  /** An absent or present value; the colony's remembered best is one. */
  datatype Option<+T> = None | Some(value: T)
}

=== FILE: run.dfy ===
/** One iteration of the optimiser and the run driver (src/abc.py, `run`). */
module Runs {
  import opened Results
  import opened FoodSources
  import opened Colonies
  import opened Neighbours
  import opened Probabilities
  import opened Phases
  import opened Scouts

  /** All random draws of one iteration, phase by phase. */
  datatype IterationDraws = IterationDraws(employed: seq<MoveDraw>, onlooker: seq<Visit>, scout: ScoutDraw)

  predicate IterationDrawn(d: IterationDraws, cfg: Config, size: nat) {
    && AllMovesDrawn(d.employed, size, cfg.solutionSize)
    && AllVisitsDrawn(d.onlooker, size, cfg.solutionSize)
    && ScoutDrawn(d.scout, size, cfg.solutionSize, cfg.lb, cfg.ub)
  }

  predicate AllIterationsDrawn(draws: seq<IterationDraws>, cfg: Config, size: nat) {
    forall k :: 0 <= k < |draws| ==> IterationDrawn(draws[k], cfg, size)
  }

  /** One iteration: employed phase, probabilities of the resulting
      population, onlooker phase, scout phase. */
  function Iterate(f: seq<real> -> real, c: Colony, d: IterationDraws): (r: Result<Colony>)
    requires WellFormed(f, c)
    requires IterationDrawn(d, c.cfg, |c.sources|)
    ensures r.Err? ==> r.error != NoBest
    ensures |c.sources| == 0 ==> r == Err(EmptyRange)
    ensures r.Ok? ==>
              && r.value.cfg == c.cfg
              && |r.value.sources| == |c.sources|
              && WellFormed(f, r.value)
              && r.value.best.Some?
  {
    var cfg := c.cfg;
    match EmployedPhase(f, cfg, c.sources, d.employed)
    case Err(e) => Err(e)
    case Ok(e) =>
      ConsistentIsFit(f, e);
      match CalculateProbabilities(e)
      case Err(x) => Err(x)
      case Ok(probs) =>
        match OnlookerPhase(f, cfg, e, probs, d.onlooker)
        case Err(x) => Err(x)
        case Ok(o) =>
          var s := Scout(f, cfg, o.pop, c.best, d.scout);
          Ok(Colony(cfg, s.pop, s.best))
  }

  /** A non-empty population of non-empty solutions inside [lb, ub] shows
      that the box is not empty. */
  lemma BoxNonEmpty(pop: Population, n: nat, lb: real, ub: real)
    requires |pop| > 0 && n > 0
    requires Shaped(pop, n) && AllInBox(pop, lb, ub)
    ensures lb <= ub
  {
    assert InBox(pop[0].solution, lb, ub);
    assert lb <= pop[0].solution[0] <= ub;
  }

  /** An iteration keeps every coordinate of every solution inside [lb, ub]. */
  lemma IterateKeepsValid(f: seq<real> -> real, c: Colony, d: IterationDraws)
    requires Valid(f, c)
    requires IterationDrawn(d, c.cfg, |c.sources|)
    ensures Iterate(f, c, d).Ok? ==> Valid(f, Iterate(f, c, d).value)
  {
    var cfg := c.cfg;
    var e := EmployedPhase(f, cfg, c.sources, d.employed);
    if e.Ok? {
      ConsistentIsFit(f, e.value);
      var probs := CalculateProbabilities(e.value);
      if probs.Ok? {
        var o := OnlookerPhase(f, cfg, e.value, probs.value, d.onlooker);
        if o.Ok? {
          assert |c.sources| > 0 && cfg.solutionSize > 0;
          BoxNonEmpty(c.sources, cfg.solutionSize, cfg.lb, cfg.ub);
          var sc := Scout(f, cfg, o.value.pop, c.best, d.scout);
          assert Iterate(f, c, d) == Ok(Colony(cfg, sc.pop, sc.best));
          assert AllInBox(e.value, cfg.lb, cfg.ub);
          assert AllInBox(o.value.pop, cfg.lb, cfg.ub);
          assert AllInBox(sc.pop, cfg.lb, cfg.ub);
        } else {
          assert Iterate(f, c, d).Err?;
        }
      }
    } else {
      assert Iterate(f, c, d).Err?;
    }
  }

  /** With a single food source the partner retry loop of the very first move
      never exits, so no iteration completes. */
  lemma SingleSourceNeverIterates(f: seq<real> -> real, c: Colony, d: IterationDraws)
    requires WellFormed(f, c)
    requires IterationDrawn(d, c.cfg, |c.sources|)
    requires |c.sources| == 1
    ensures Iterate(f, c, d) == Err(OutOfDraws)
  {
  }

  /** Across one iteration exactly one source is restarted with the scout's
      vector; every other source made progress: it became strictly fitter, or
      kept its solution and cache while its counter did not go down. */
  lemma IterationProgress(f: seq<real> -> real, c: Colony, d: IterationDraws)
    requires WellFormed(f, c)
    requires IterationDrawn(d, c.cfg, |c.sources|)
    ensures Iterate(f, c, d).Ok? ==>
              var next := Iterate(f, c, d).value.sources;
              exists r :: 0 <= r < |next| && next[r] == NewFoodSource(f, d.scout.sample) &&
                forall k :: 0 <= k < |next| && k != r ==> Progress(c.sources[k], next[k])
  {
    if Iterate(f, c, d).Err? { return; }
    var cfg := c.cfg;
    var e := EmployedPhase(f, cfg, c.sources, d.employed).value;
    ConsistentIsFit(f, e);
    var probs := CalculateProbabilities(e).value;
    var o := OnlookerPhase(f, cfg, e, probs, d.onlooker).value;
    var sc := Scout(f, cfg, o.pop, c.best, d.scout);
    assert Iterate(f, c, d).value.sources == sc.pop;
    forall k | 0 <= k < |sc.pop| && k != sc.restarted
      ensures Progress(c.sources[k], sc.pop[k])
    {
      StepLawIsProgress(c.sources[k], e[k]);
      AttemptedIsProgress(e[k], o.pop[k], multiset(o.moved)[k]);
      ProgressTransitive(c.sources[k], e[k], o.pop[k]);
    }
  }

  /** The iteration loop of `run` from iteration `i` on: one iteration per
      remaining draw bundle, iteration `k` using `draws[k]`. */
  function RunLoop(f: seq<real> -> real, c: Colony, draws: seq<IterationDraws>, i: nat): (r: Result<Colony>)
    requires WellFormed(f, c) && i <= |draws|
    requires AllIterationsDrawn(draws, c.cfg, |c.sources|)
    ensures r.Err? ==> r.error != NoBest
    ensures i == |draws| ==> r == Ok(c)
    ensures r.Ok? ==>
              && r.value.cfg == c.cfg
              && |r.value.sources| == |c.sources|
              && WellFormed(f, r.value)
    ensures r.Ok? && i < |draws| ==> r.value.best.Some?
    decreases |draws| - i
  {
    if i == |draws| then Ok(c)
    else
      match Iterate(f, c, draws[i])
      case Err(e) => Err(e)
      case Ok(c1) => RunLoop(f, c1, draws, i + 1)
  }

  /** `run`: all iterations, then the remembered best source is reported.
      Reporting before any scout phase stored a best fails. */
  function Run(f: seq<real> -> real, c: Colony, draws: seq<IterationDraws>): (r: Result<FoodSource>)
    requires WellFormed(f, c)
    requires |draws| == c.cfg.maxIt
    requires AllIterationsDrawn(draws, c.cfg, |c.sources|)
    ensures r == Err(NoBest) <==> c.cfg.maxIt == 0 && c.best.None?
    ensures c.cfg.maxIt > 0 && c.cfg.np <= 0 ==> r == Err(EmptyRange)
    ensures r.Ok? ==> Consistent(f, r.value) && |r.value.solution| == c.cfg.solutionSize
  {
    match RunLoop(f, c, draws, 0)
    case Err(e) => Err(e)
    case Ok(last) =>
      if last.best.None? then Err(NoBest)
      else Ok(last.sources[last.best.value])
  }

  /** A run from a colony whose every solution is in the box reports a
      solution in the box, with a consistent cache. */
  lemma {:induction false} RunLoopKeepsValid(f: seq<real> -> real, c: Colony, draws: seq<IterationDraws>, i: nat)
    requires Valid(f, c) && i <= |draws|
    requires AllIterationsDrawn(draws, c.cfg, |c.sources|)
    ensures RunLoop(f, c, draws, i).Ok? ==> Valid(f, RunLoop(f, c, draws, i).value)
    decreases |draws| - i
  {
    if i < |draws| {
      var step := Iterate(f, c, draws[i]);
      if step.Ok? {
        IterateKeepsValid(f, c, draws[i]);
        assert RunLoop(f, c, draws, i) == RunLoop(f, step.value, draws, i + 1);
        RunLoopKeepsValid(f, step.value, draws, i + 1);
      } else {
        assert RunLoop(f, c, draws, i).Err?;
      }
    }
  }

  lemma RunReportsSound(f: seq<real> -> real, c: Colony, draws: seq<IterationDraws>)
    requires Valid(f, c)
    requires |draws| == c.cfg.maxIt
    requires AllIterationsDrawn(draws, c.cfg, |c.sources|)
    ensures Run(f, c, draws).Ok? ==> Sound(f, Run(f, c, draws).value, c.cfg.solutionSize, c.cfg.lb, c.cfg.ub)
  {
    RunLoopKeepsValid(f, c, draws, 0);
  }

  /** With a single food source a run with at least one iteration never
      reaches its report. */
  lemma SingleSourceNeverReports(f: seq<real> -> real, c: Colony, draws: seq<IterationDraws>)
    requires WellFormed(f, c)
    requires |draws| == c.cfg.maxIt
    requires AllIterationsDrawn(draws, c.cfg, |c.sources|)
    requires |c.sources| == 1 && c.cfg.maxIt > 0
    ensures Run(f, c, draws) == Err(OutOfDraws)
  {
  }

  /** A freshly constructed colony run for zero iterations has nothing to report. */
  lemma ZeroIterationsReportNothing(f: seq<real> -> real, solutionSize: nat, lb: real, ub: real,
                                    swarmSize: int, samples: seq<seq<real>>)
    requires |samples| == LoopCount(HalfTowardZero(swarmSize))
    requires forall k :: 0 <= k < |samples| ==> |samples[k]| == solutionSize
    ensures Run(f, Init(f, solutionSize, lb, ub, swarmSize, 0, samples), []) == Err(NoBest)
  {
  }

  /** A swarm of fewer than two bees has no food source: the first iteration
      already fails on the empty range. Such draws exist for every box: the
      scout's vector need only have the right length when the box is empty. */
  lemma TinySwarmFails(f: seq<real> -> real, solutionSize: nat, lb: real, ub: real,
                       swarmSize: int, maxIt: nat, draws: seq<IterationDraws>)
    requires swarmSize < 2 && maxIt > 0 && |draws| == maxIt
    requires AllIterationsDrawn(draws, Init(f, solutionSize, lb, ub, swarmSize, maxIt, []).cfg, 0)
    ensures Iterate(f, Init(f, solutionSize, lb, ub, swarmSize, maxIt, []), draws[0]) == Err(EmptyRange)
    ensures Run(f, Init(f, solutionSize, lb, ub, swarmSize, maxIt, []), draws) == Err(EmptyRange)
  {
  }

  /** A concrete instance: one bee, two coordinates, one iteration. */
  lemma OneBeeFails(f: seq<real> -> real)
    ensures var d := IterationDraws([], [], ScoutDraw([0.0, 0.0], 0));
            Run(f, Init(f, 2, -5.0, 5.0, 1, 1, []), [d]) == Err(EmptyRange)
  {
    var d := IterationDraws([], [], ScoutDraw([0.0, 0.0], 0));
    var c := Init(f, 2, -5.0, 5.0, 1, 1, []);
    assert IterationDrawn(d, c.cfg, 0);
    TinySwarmFails(f, 2, -5.0, 5.0, 1, 1, [d]);
  }
}

=== FILE: scout.dfy ===
/** The scout-bee phase (src/abc.py, `__scout_bee_phase`): remember the best
    source, then restart one source with a fresh random vector. */
module Scouts {
  import opened Results
  import opened FoodSources
  import opened Colonies

  /** `b` is the lowest index of maximum fitness. */
  predicate IsFirstBest(pop: Population, b: nat) {
    && b < |pop|
    && (forall k :: 0 <= k < |pop| ==> pop[k].fitness <= pop[b].fitness)
    && (forall k :: 0 <= k < b ==> pop[k].fitness < pop[b].fitness)
  }

  /** The scan from index `i` on, with `b` the best among indices below `i`;
      a later source replaces `b` only when strictly fitter. */
  function ScanBest(pop: Population, i: nat, b: nat): (r: nat)
    requires b < i <= |pop|
    requires forall k :: 0 <= k < i ==> pop[k].fitness <= pop[b].fitness
    requires forall k :: 0 <= k < b ==> pop[k].fitness < pop[b].fitness
    ensures IsFirstBest(pop, r)
    decreases |pop| - i
  {
    if i == |pop| then b
    else if pop[i].fitness > pop[b].fitness then ScanBest(pop, i + 1, i)
    else ScanBest(pop, i + 1, b)
  }

  /** The best source of this iteration, starting the scan from source 0. */
  function IterationBest(pop: Population): (r: nat)
    requires |pop| > 0
    ensures IsFirstBest(pop, r)
  {
    ScanBest(pop, 1, 0)
  }

  /** There is exactly one lowest index of maximum fitness. */
  lemma FirstBestUnique(pop: Population, a: nat, b: nat)
    requires IsFirstBest(pop, a) && IsFirstBest(pop, b)
    ensures a == b
  {
    assert pop[a].fitness == pop[b].fitness;
    assert !(a < b);
    assert !(b < a);
  }

  /** The colony's remembered best after this iteration's best `b`: replaced
      when unset or strictly worse than `b`, otherwise kept. */
  function UpdateBest(pop: Population, best: Option<nat>, b: nat): (r: Option<nat>)
    requires b < |pop|
    requires best.Some? ==> best.value < |pop|
    ensures r.Some? && r.value < |pop|
    ensures r == Some(b) || r == best
    ensures pop[r.value].fitness >= pop[b].fitness
    ensures best.Some? ==> pop[r.value].fitness >= pop[best.value].fitness
    ensures best.Some? && pop[b].fitness <= pop[best.value].fitness ==> r == best
  {
    if best.None? || pop[b].fitness > pop[best.value].fitness then Some(b) else best
  }

  /** Some source has exceeded the trial limit. */
  predicate AnyOverLimit(pop: Population, limit: int) {
    exists k :: 0 <= k < |pop| && pop[k].trials > limit
  }

  /** The index of the source that is restarted, as the code computes it.
      The marker array is overwritten by a scalar trial count whenever some
      source exceeds the limit, so the arg-max is then 0; otherwise the markers
      are all zero, every index ties, and the tie is broken by `pick`. */
  function ScoutIndex(pop: Population, limit: int, pick: nat): (r: nat)
    requires pick < |pop|
    ensures r < |pop|
    ensures AnyOverLimit(pop, limit) ==> r == 0
    ensures !AnyOverLimit(pop, limit) ==> r == pick
  {
    if AnyOverLimit(pop, limit) then 0
    else if |pop| > 1 then pick
    else 0
  }

  /** The random draws of one scout phase: the fresh vector and the tie-break index. */
  datatype ScoutDraw = ScoutDraw(sample: seq<real>, pick: int)

  /** The generator's guarantees: a vector of `n` uniform draws, inside the
      box whenever the box is not empty, and a tie-break index in range
      whenever there is a source to pick. */
  predicate ScoutDrawn(d: ScoutDraw, size: nat, n: nat, lb: real, ub: real) {
    && |d.sample| == n
    && (lb <= ub ==> InBox(d.sample, lb, ub))
    && (size > 0 ==> 0 <= d.pick < size)
  }

  /** The outcome of a scout phase: the population, the remembered best, and
      the index that was restarted. */
  datatype ScoutRun = ScoutRun(pop: Population, best: Option<nat>, restarted: nat)

  /** The scout-bee phase: remember the best source, then restart exactly one
      source with the fresh vector. */
  function Scout(f: seq<real> -> real, cfg: Config, pop: Population, best: Option<nat>, d: ScoutDraw): (r: ScoutRun)
    requires |pop| > 0
    requires best.Some? ==> best.value < |pop|
    requires ScoutDrawn(d, |pop|, cfg.solutionSize, cfg.lb, cfg.ub)
    ensures |r.pop| == |pop|
    ensures r.restarted < |pop|
    ensures AnyOverLimit(pop, cfg.trialLimit) ==> r.restarted == 0
    ensures !AnyOverLimit(pop, cfg.trialLimit) ==> r.restarted == d.pick as nat
    ensures r.pop[r.restarted] == NewFoodSource(f, d.sample)
    ensures cfg.lb <= cfg.ub ==> Sound(f, r.pop[r.restarted], cfg.solutionSize, cfg.lb, cfg.ub)
    ensures forall k :: 0 <= k < |pop| && k != r.restarted ==> r.pop[k] == pop[k]
    ensures Shaped(pop, cfg.solutionSize) ==> Shaped(r.pop, cfg.solutionSize)
    ensures AllConsistent(f, pop) ==> AllConsistent(f, r.pop)
    ensures cfg.lb <= cfg.ub && AllInBox(pop, cfg.lb, cfg.ub) ==> AllInBox(r.pop, cfg.lb, cfg.ub)
    ensures r.best.Some? && r.best.value < |pop|
    ensures r.best != best ==> r.best == Some(IterationBest(pop))
    ensures forall k :: 0 <= k < |pop| ==> pop[k].fitness <= pop[r.best.value].fitness
    ensures (best.Some? && forall k :: 0 <= k < |pop| ==> pop[k].fitness <= pop[best.value].fitness) ==>
              r.best == best
  {
    var b := IterationBest(pop);
    var newBest := UpdateBest(pop, best, b);
    var i := ScoutIndex(pop, cfg.trialLimit, d.pick as nat);
    var v := f(d.sample);
    ScoutRun(pop[i := UpdateSolution(pop[i], d.sample, v, Fitness(v))], newBest, i)
  }

  /** The comment beside the code promises to restart the source with the
      most trials over the limit. As written, a source other than 0 that is
      over the limit is never restarted: it keeps its stale solution and its
      counter, while source 0 is restarted in its place. */
  lemma StagnantSourceSurvives(f: seq<real> -> real, cfg: Config, pop: Population, best: Option<nat>,
                               d: ScoutDraw, k: nat)
    requires |pop| > 0
    requires best.Some? ==> best.value < |pop|
    requires ScoutDrawn(d, |pop|, cfg.solutionSize, cfg.lb, cfg.ub)
    requires 0 < k < |pop| && pop[k].trials > cfg.trialLimit
    ensures Scout(f, cfg, pop, best, d).pop[k] == pop[k]
    ensures Scout(f, cfg, pop, best, d).pop[k].trials > cfg.trialLimit
  {
  }

  /** Because the remembered best is a reference, restarting that very source
      replaces what the colony remembers: here the best of the iteration has
      fitness 1, and after the scout phase the remembered best has fitness 1/2. */
  lemma AliasedBestCanDegrade()
    ensures var f := (v: seq<real>) => if |v| > 0 then v[0] * v[0] else 0.0;
            var cfg := Config(1, -5.0, 5.0, 2, 2, 1);
            var pop := [FoodSource([0.0], 0.0, 1.0, 0), FoodSource([2.0], 4.0, 0.2, 3)];
            var r := Scout(f, cfg, pop, None, ScoutDraw([1.0], 1));
            && AllConsistent(f, pop)
            && r.best == Some(0)
            && pop[0].fitness == 1.0
            && r.pop[r.best.value].fitness == 0.5
  {
  }
}
